=== FILE: README.md ===
# Shifubriq in Dafny

Shifubriq is a chat bot that plays Rock-Paper-Scissors between two users of a team chat.
A user challenges another with a slash-command whose text is a mention `<@id|name>`. The
challenged user answers with a mention of the challenger and joins the match. Both then press
a move button. A tie or a win ends the match. On a win, in production, the loser pays the
winner through an external transfer service.

This project models the engine and the service logic that drives it:

- `game.dfy`, module `GameModel`: one match (`Game`), a two-state machine (Started, Ended)
  over the ordered list of participants and the map of moves. The rules are pure functions
  over a `GameState` value: `NewGame`, `AddUserStep`, `PlayMoveStep`, `Resolve`, `EndStep`.
  The class `Game` holds the same state in mutable fields. Each of its methods is proved to
  perform exactly the corresponding step.
- `games.dfy`, module `Registry`: the registry of active matches (`Games`), a map from match
  id to match object. The id is the two user ids sorted with JavaScript's string order and
  joined with `-`.
- `username.dfy`, module `UsernameParser`: reading the opponent from the command text
  (JavaScript `trim`, `split(' ')` and the first match of the mention pattern).
- `shifubriq.dfy`, module `Shifubriq`: starting or joining a match (`initiateShifubriqGame`)
  and playing a move (`playShifubriqGame`). Each request is first specified as a pure function
  over a snapshot of the registry (match id to match state). The methods that act on the real
  `Games` and `Game` objects are proved to produce exactly that outcome and to keep the
  registry invariant. The invariant: every match is stored under its own id, is valid, and is
  still Started.
- `wrappers.dfy`, module `Wrappers`: `Option` and `Result`.

How the outside world appears in the model:

- The user directory that `getUsersNames` fetches is a parameter: a map from user id to
  display name. The lookup fails when an id is missing or its name is empty, as the source
  does.
- Chat messages and the payout are not sent. Each request returns them, in order, as a list
  of `Effect` values.
- The production check on the environment is a boolean parameter.
- A thrown error is a `Threw` reply. Any change made to the registry before the throw is kept,
  as in the source.
- A stored move that is not one of the three moves (the tests store `null`) is the move
  `Unknown`. It is falsy, so a user whose stored move is `Unknown` may play again.

## Model

| member | source | states |
|---|---|---|
| GameModel.NewGame | src/services/games/game.ts:46-51 | a new match holds only its initiator, no moves, is Started and is valid |
| GameModel.Game.constructor | src/services/games/game.ts:46-51 | the object's id is the given id and its state is `NewGame(userId)` |
| GameModel.Game.IsOngoing | src/services/games/game.ts:53-55 | a match is ongoing exactly when it is Started, that is exactly when ending it would change it |
| GameModel.AddUserStep | src/services/games/game.ts:60-89 | each rejection reason comes exactly under its condition, in the source's order: `game_ended` when not Started, then `no_user_in_game` with no user, `game_full` with more than one, `user_already_in_game` when the one user is the joiner; otherwise `added`, the joiner is appended and there are two users; every rejection leaves the state unchanged; validity is preserved |
| GameModel.Game.AddUser | src/services/games/game.ts:60-89 | the result and the new fields are those of `AddUserStep` on the old fields; validity is preserved |
| GameModel.PlayMoveStep | src/services/games/game.ts:91-110 | each rejection reason comes exactly under its condition, in the source's order: `game_ended` when not Started, then `user_already_played_move` when the user has a truthy move, `all_players_played` with more than one move, `user_not_added` for a non-participant; otherwise `move_played`, the move is recorded, the whole map is returned and it holds one or two moves; every rejection leaves the state unchanged; validity is preserved |
| GameModel.Game.PlayMove | src/services/games/game.ts:91-110 | the result and the new fields are those of `PlayMoveStep` on the old fields; validity is preserved |
| GameModel.Duel | src/services/games/game.ts:130-149 | the if-chain decides exactly the pairs of two different real moves, and the side it names wins with its own move, which beats the other one |
| GameModel.Resolve | src/services/games/game.ts:112-155 | `game_ended` when Ended; `not_all_users_played` under two moves; `no_winner` exactly when both participants' moves are equal; a winner exactly when they are two different real moves, and then the winner's move beats the loser's; `unknown_move` exactly otherwise |
| GameModel.Game.ResolveGame | src/services/games/game.ts:112-155 | resolution only reads the match, and a winner and a loser are its two participants |
| GameModel.EndStep | src/services/games/game.ts:157-159 | ending sets Ended and keeps participants and moves; validity is preserved |
| GameModel.Game.EndGame | src/services/games/game.ts:157-159 | the new fields are those of `EndStep` on the old fields |
| GameModel.MovesWithinParticipants | src/services/games/game.ts:100-108 | in a valid match there are no more moves than participants and at most two; two moves mean two participants who both have a move |
| GameModel.ResolveDecidesValidMoves | src/services/games/game.ts:126-154 | a valid Started match with two stored real moves resolves to a winner or a tie |
| GameModel.ResolveSwapsWinner | src/services/games/game.ts:130-149 | exchanging the two participants' moves exchanges winner and loser, keeps the winning move and leaves every other outcome as it was |
| GameModel.ResolveBetween | src/services/games/game.ts:122-154 | once both participants of a Started match have a real move, equal moves give no winner and otherwise the player whose move beats the other's is the winner, the other the loser, with the winning move |
| GameModel.EndedIsAbsorbing | src/services/games/game.ts:157-159 | after ending, a join, a move and a resolution all report `game_ended` and change nothing, and ending again changes nothing |
| Registry.SortPair | src/services/games/games.ts:18 | sorting two ids returns the same two ids, never in descending order |
| Registry.Precedes | src/services/games/games.ts:18 | JavaScript `<` on strings, which the sort uses: true exactly when the first string is a proper prefix of the second, or the two agree up to a position where the first holds the smaller character |
| Registry.PrecedesIrreflexive | src/services/games/games.ts:18 | no string comes before itself in the string order used by the sort |
| Registry.PrecedesAsymmetric | src/services/games/games.ts:18 | of two strings, at most one comes before the other |
| Registry.PrecedesTotal | src/services/games/games.ts:18 | any two different strings are ordered one way or the other |
| Registry.PrecedesTransitive | src/services/games/games.ts:18 | the string order used by the sort is transitive |
| Registry.Games.constructor | src/services/games/games.ts:6-15 | the registry starts empty and valid |
| Registry.Games.ComputeGameId | src/services/games/games.ts:17-19 | the id is the two user ids joined by `-`, the one that comes first in string order first |
| Registry.ComputeGameIdSymmetric | src/services/games/games.ts:17-19 | the id does not depend on which user is named first |
| Registry.ComputeGameIdDeterminesPair | src/services/games/games.ts:18 | for user ids without `-`, equal match ids mean the same pair of users |
| Registry.ComputeGameIdCollidesOnDash | src/services/games/games.ts:18 | with `-` inside user ids, two different pairs share one match id |
| Registry.Games.GetGame | src/services/games/games.ts:25-27 | the lookup finds a match exactly when the id is registered, returns the stored object, and in a valid registry that object carries the id |
| Registry.Games.InitiateGame | src/services/games/games.ts:29-37 | a taken id fails and leaves the registry unchanged; a free id stores a fresh match with that id and only its initiator, changing nothing else; validity is preserved |
| Registry.Games.EndGame | src/services/games/games.ts:39-42 | the match is Ended, its id is removed and every other entry is kept; validity is preserved |
| UsernameParser.TrimStart | src/services/shifubriq.ts:18 | dropping leading whitespace leaves a suffix of the text that is empty or starts with a non-space, after a blank prefix |
| UsernameParser.TrimEnd | src/services/shifubriq.ts:18 | dropping trailing whitespace leaves a prefix of the text that is empty or ends with a non-space, before a blank suffix |
| UsernameParser.Trim | src/services/shifubriq.ts:18 | the trimmed text is empty exactly when the text is all JavaScript whitespace |
| UsernameParser.Split | src/services/shifubriq.ts:22 | splitting on a space gives at least one piece, no piece holds a space, and there is more than one piece exactly when the text holds a space |
| UsernameParser.SplitJoin | src/services/shifubriq.ts:22 | joining the pieces with single spaces gives the text back |
| UsernameParser.IndexFrom | src/services/shifubriq.ts:9 | the search returns the first position at or after the start that holds the character, or none when no such position exists |
| UsernameParser.IndexFromFinds | src/services/shifubriq.ts:9 | a position holding the character with none of it between the start and there is exactly what the search returns |
| UsernameParser.MatchAt | src/services/shifubriq.ts:9 | a match of the mention pattern at a position is a mention that stands in the text there, with no `\|` in the id and no `>` in the name |
| UsernameParser.MentionAt | src/services/shifubriq.ts:9 | a mention standing at a position puts `<@`, the id, `\|`, the name and `>` at the positions the pattern reads them from |
| UsernameParser.MatchAtComplete | src/services/shifubriq.ts:9 | every such mention standing at a position is what the pattern captures there |
| UsernameParser.FirstMatch | src/services/shifubriq.ts:27 | the search returns the leftmost position where the pattern matches, or none when it matches nowhere |
| UsernameParser.GetUsernameFromString | src/services/shifubriq.ts:17-36 | `no_argument` exactly for blank text; `too_many_arguments` exactly for other text with a space; `no_user_name` exactly for a single token with no mention; otherwise the leftmost mention in the text |
| UsernameParser.MentionRoundTrip | src/services/shifubriq.ts:17-36 | parsing a lone mention gives back its id and name when neither holds a space |
| Shifubriq.GetUsersNames | src/services/user.ts:3-14 | the lookup succeeds exactly when every id has a non-empty name, and then returns those names in the order of the ids |
| Shifubriq.NamesOfPair | src/services/user.ts:3-14 | looking up two users who both have a name gives their two names in the order asked |
| Shifubriq.NotInitiatedReason | src/services/shifubriq.ts:84-90 | a parse failure is reported under its own reason, never as `still_waiting` or `no_receiver_id` |
| Shifubriq.CreateGameSpec | src/services/shifubriq.ts:38-52 | creation succeeds exactly when both names are found and the id is free; it then registers a new match of the initiator and announces both players by name; a failure changes nothing and throws a missing name or a taken id |
| Shifubriq.CreateGame | src/services/shifubriq.ts:38-52 | the reply, the registry afterwards and the effects are those of `CreateGameSpec`; the registry stays valid |
| Shifubriq.JoinGameSpec | src/services/shifubriq.ts:54-70 | `still_waiting` exactly when the first participant is the joiner, whatever the status or size; otherwise the join throws exactly when `addUser` rejects it, with that reason, and succeeds exactly when the match is Started and holds one other user; a join appends the joiner and prompts both participants; otherwise nothing changes and nothing is sent; validity is preserved |
| Shifubriq.JoinGame | src/services/shifubriq.ts:55-70 | the reply, the new match state and the effects are those of `JoinGameSpec` |
| Shifubriq.JoinRegistered | src/services/shifubriq.ts:98-103 | `still_waiting` exactly when the first participant is the joiner; a throw, with `addUser`'s reason, exactly when `addUser` rejects anyone else; `game_initiated` exactly when the join succeeds, and then only this match changes, by appending the joiner, and both participants are prompted; any other answer leaves the registry unchanged and sends nothing; the registry invariant is kept |
| Shifubriq.JoinRegisteredGame | src/services/shifubriq.ts:98-103 | the reply, the registry afterwards and the effects are those of `JoinRegistered`; the registry invariant is kept |
| Shifubriq.InitiateAgainst | src/services/shifubriq.ts:92-105 | with no match under the computed id, a missing name throws and changes nothing, and found names register `NewGame(initiator)`, answer `game_initiated` and announce both players by name; with a match there, the outcome is that of joining it; only that entry can change, none is removed, the registry invariant is kept, and `no_receiver_id` is never answered |
| Shifubriq.Initiate | src/services/shifubriq.ts:80-106 | a parse failure changes nothing and is answered with its reason; a found opponent leads to creating or joining the match with them as for `InitiateAgainst`; only the entry under the computed id can change and none is removed; the registry invariant is kept; a taken id is never created and `no_receiver_id` is never answered |
| Shifubriq.InitiateShifubriqGame | src/services/shifubriq.ts:80-106 | the reply, the registry afterwards and the effects are those of `Initiate`; the registry invariant is kept |
| Shifubriq.Award | src/services/shifubriq.ts:150-164 | a missing name throws and sends nothing; otherwise the winner is named first, in production the loser pays the winner, and the result message names both |
| Shifubriq.Settle | src/services/shifubriq.ts:135-165 | a failed resolution throws its reason, keeps the match and sends nothing; a tie removes the match and announces the tie to the participants; a win removes the match before the names are looked up, and its reply and effects are exactly those of `Award`: a missing winner or loser name throws `NameNotFound` and sends nothing; `tie` exactly when resolution finds no winner; a payout only accompanies a win in production; the registry invariant is kept |
| Shifubriq.SettleGame | src/services/shifubriq.ts:135-165 | the reply, the registry afterwards and the effects are those of `Settle`; a match that leaves the registry is Ended |
| Shifubriq.WinWithoutNamesThrows | src/services/shifubriq.ts:147-152 | when a decided match's winner or loser has no name, the match is already removed, `NameNotFound` is thrown and neither payout nor result message is sent |
| Shifubriq.RecordMove | src/services/shifubriq.ts:124 | recording a move on the registered match object performs `PlayMoveStep` on it, changes only that match's entry of the registry and keeps the registry invariant |
| Shifubriq.PlayRegisteredGame | src/services/shifubriq.ts:122-165 | once the action is a move and the match is found, the reply, the registry afterwards and the effects are those of `Play`; the registry invariant is kept; a match that leaves the registry is Ended |
| Shifubriq.Play | src/services/shifubriq.ts:114-166 | `not_played` exactly for an action other than "game", and then nothing changes; a missing match throws `MissingGame` and a rejected move throws its reason, both changing nothing; a move that leaves one move on record is answered `pending` and recorded; a move that leaves two is recorded and the match settled as `Settle` says, so a second move whose resolution fails throws and keeps the match with the move recorded; no match is ever added and every other match is unchanged; `tie` and `win` remove it; a payout only accompanies a win in production; the registry invariant is kept |
| Shifubriq.PlayShifubriqGame | src/services/shifubriq.ts:114-166 | the reply, the registry afterwards and the effects are those of `Play`; the registry invariant is kept; a match that leaves the registry is Ended |
| Shifubriq.SecondMoveSettles | src/services/shifubriq.ts:124-136 | the second real move is recorded and the match is settled |
| Shifubriq.SettleDecided | src/services/shifubriq.ts:136-164 | with two real moves, equal moves tie; otherwise the player with the dominating move is named first and is paid by the other, and the match is removed |
| Shifubriq.DecidingMove | src/services/shifubriq.ts:114-166 | when the other participant has played, a real move ties on an equal move, wins against a move it beats and loses against a move that beats it; the names, the payout direction and the result message follow; the match is removed |
| Shifubriq.MentionInitiates | src/services/shifubriq.ts:84-97 | a lone mention goes straight to the match with the mentioned user |
| Shifubriq.ChallengeCreates | src/services/shifubriq.ts:94-97 | a challenge with no match between the two creates one holding the challenger alone and announces both players by name |
| Shifubriq.AnswerJoins | src/services/shifubriq.ts:99-105 | the challenged user's answer finds the same match, joins it and prompts both participants |
| Shifubriq.RepeatedChallengeWaits | src/services/shifubriq.ts:56-59 | a challenger repeating the challenge before the answer is told to wait and nothing changes |
| Shifubriq.FirstMovePends | src/services/shifubriq.ts:129-133 | the first move of a joined match is recorded and the reply is `pending` |
| Shifubriq.UnknownMoveReplays | src/services/shifubriq.ts:124-133 | a participant whose stored move is `null` may play again, and the new move is recorded and answered `pending` |
| Shifubriq.UnknownMovesTie | src/services/shifubriq.ts:124-146 | a second `null` on a stored `null` is a tie: `null === null`, so the match is removed and the tie announced |
| Shifubriq.FullMatch | src/services/shifubriq.ts:80-166 | challenge, answer, a move, then a move it beats: both requests report `game_initiated`, the first move is pending, the first player wins, the loser pays in production, and the registry ends as it started |

## Left out

- Network I/O: the chat API calls, message texts, the pauses between prompts and the transfer call. They appear only as recorded effects.
- Shifubriq.GetUsersNames: the directory is a parameter, so a failure of the directory fetch itself is not modelled; only a missing or empty name fails.
- Fire-and-forget sends: a failed prompt, tie, payout or result send cannot affect the reply, so they are recorded and never fail. The awaited "game created" send is also modelled as succeeding.
- The environment read that detects production is the `production` parameter.
- The singleton machinery of the registry (the static instance, `getInstance`, the throw on a second construction): the model uses one explicitly constructed registry.
- Concurrency: each request runs atomically against the registry; interleavings across `await` are not modelled.
- The request controllers, routers, request-token check, configuration and message formatting are not part of this model.
- Stored moves other than the three moves and `null` (any other truthy string) are not modelled: all of them are the single value `Unknown`, which is falsy like `null`.
- Object-key quirks of JavaScript maps (user ids such as `__proto__`, the key `"undefined"`) are not modelled.
- GameModel.Game.PlayMove: the returned map is a value; the source returns the live map object, which later moves would change.
- Registry.Precedes: compares characters as code points; JavaScript compares UTF-16 code units, which order differently only for characters outside the Basic Multilingual Plane.
- An unknown match id in `playShifubriqGame` makes the source fail on `undefined`; the model throws the error `MissingGame` there.

=== FILE: game.dfy ===
/**
 * One Shifubriq match: a two-state machine (Started, Ended) over an ordered list of
 * participants and the moves they have submitted.
 *
 * The rules are stated once, as pure functions over a `GameState` value; the class `Game`
 * holds the same state in mutable fields and its methods are proved against those functions.
 */
module GameModel {
  import opened Wrappers

  datatype Status = Started | Ended

  /**
   * A move as it is stored in a match. `Unknown` stands for a stored value that is none of
   * the three moves (a caller can store `null`); unlike the three moves, it is falsy.
   */
  datatype Move = Rock | Paper | Scissors | Unknown {
    predicate IsTruthy() { this != Unknown }
  }

  /** The cyclic dominance rule: Paper beats Rock, Rock beats Scissors, Scissors beats Paper. */
  predicate Beats(a: Move, b: Move) {
    || (a == Paper && b == Rock)
    || (a == Rock && b == Scissors)
    || (a == Scissors && b == Paper)
  }

  datatype AddUserReason = GameEnded | NoUserInGame | GameFull | UserAlreadyInGame
  datatype AddUserResult = Added | NotAdded(reason: AddUserReason)

  datatype PlayMoveReason = GameEnded | UserAlreadyPlayedMove | AllPlayersPlayed | UserNotAdded
  datatype PlayMoveResult = MovePlayed(moves: map<string, Move>) | MoveNotPlayed(reason: PlayMoveReason)

  datatype GameResult = GameResult(winnerId: string, loserId: string, move: Move)
  datatype ResolveReason = GameEnded | NotAllUsersPlayed | UnknownMove
  datatype ResolveResult = Winner(gameResult: GameResult) | NoWinner | NotResolved(reason: ResolveReason)

  /** The fields of a match other than its id: participants (initiator first), moves, status. */
  datatype GameState = GameState(usersIds: seq<string>, moves: map<string, Move>, status: Status)

  /** The match invariant: at most two distinct participants, and only participants have moves. */
  predicate ValidState(s: GameState) {
    && |s.usersIds| <= 2
    && (|s.usersIds| == 2 ==> s.usersIds[0] != s.usersIds[1])
    && forall u :: u in s.moves ==> u in s.usersIds
  }

  /** A freshly constructed match: the initiator alone, no moves, Started. */
  function NewGame(userId: string): (s: GameState)
    ensures ValidState(s) && s.status == Started
  {
    GameState([userId], map[], Started)
  }

  /**
   * `addUser`: the checks run in a fixed order and the first that fails names the rejection.
   * Only a Started match with exactly one participant, other than `userId`, accepts the join.
   */
  function AddUserStep(s: GameState, userId: string): (out: (AddUserResult, GameState))
    ensures out.0 == NotAdded(AddUserReason.GameEnded) <==> s.status != Started
    ensures out.0 == NotAdded(NoUserInGame) <==> s.status == Started && |s.usersIds| == 0
    ensures out.0 == NotAdded(GameFull) <==> s.status == Started && |s.usersIds| > 1
    ensures out.0 == NotAdded(UserAlreadyInGame) <==> s.status == Started && |s.usersIds| == 1 && s.usersIds[0] == userId
    ensures out.0 == Added <==> s.status == Started && |s.usersIds| == 1 && s.usersIds[0] != userId
    ensures out.0 == Added ==> out.1 == s.(usersIds := s.usersIds + [userId]) && |out.1.usersIds| == 2
    ensures out.0.NotAdded? ==> out.1 == s
    ensures ValidState(s) ==> ValidState(out.1)
  {
    if s.status != Started then (NotAdded(AddUserReason.GameEnded), s)
    else if |s.usersIds| == 0 then (NotAdded(NoUserInGame), s)
    else if |s.usersIds| > 1 then (NotAdded(GameFull), s)
    else if s.usersIds[0] == userId then (NotAdded(UserAlreadyInGame), s)
    else (Added, s.(usersIds := s.usersIds + [userId]))
  }

  /** The `this.moves[userId]` test: a move is on record and it is truthy. */
  predicate HasPlayed(s: GameState, userId: string) {
    userId in s.moves && s.moves[userId].IsTruthy()
  }

  /**
   * `playMove`: ordered checks, then the move is recorded and the whole map returned.
   * A successful move keeps every mover a participant and leaves one or two moves.
   */
  function PlayMoveStep(s: GameState, userId: string, move: Move): (out: (PlayMoveResult, GameState))
    ensures out.0 == MoveNotPlayed(PlayMoveReason.GameEnded) <==> s.status != Started
    ensures out.0 == MoveNotPlayed(UserAlreadyPlayedMove) <==> s.status == Started && HasPlayed(s, userId)
    ensures out.0 == MoveNotPlayed(AllPlayersPlayed) <==>
              s.status == Started && !HasPlayed(s, userId) && |s.moves| > 1
    ensures out.0 == MoveNotPlayed(UserNotAdded) <==>
              s.status == Started && !HasPlayed(s, userId) && |s.moves| <= 1 && userId !in s.usersIds
    ensures out.0.MovePlayed? <==>
              s.status == Started && !HasPlayed(s, userId) && |s.moves| <= 1 && userId in s.usersIds
    ensures out.0.MovePlayed? ==>
              && out.1 == s.(moves := s.moves[userId := move])
              && out.0.moves == out.1.moves
              && 1 <= |out.1.moves| <= 2
    ensures out.0.MoveNotPlayed? ==> out.1 == s
    ensures ValidState(s) ==> ValidState(out.1)
  {
    if s.status != Started then (MoveNotPlayed(PlayMoveReason.GameEnded), s)
    else if HasPlayed(s, userId) then (MoveNotPlayed(UserAlreadyPlayedMove), s)
    else if |s.moves| > 1 then (MoveNotPlayed(AllPlayersPlayed), s)
    else if userId !in s.usersIds then (MoveNotPlayed(UserNotAdded), s)
    else
      var moves := s.moves[userId := move];
      (MovePlayed(moves), s.(moves := moves))
  }

  /** The move on record for the participant at position `i`; None is JavaScript's `undefined`. */
  function MoveOf(s: GameState, i: nat): Option<Move> {
    if i < |s.usersIds| && s.usersIds[i] in s.moves then Some(s.moves[s.usersIds[i]]) else None
  }

  /** One of the three moves (neither absent nor Unknown). */
  predicate IsPlayable(m: Option<Move>) {
    m.Some? && m.value != Unknown
  }

  datatype Side = First | Second

  /**
   * The if-chain that compares the first participant's move with the second's: which side wins
   * and with what move. It decides exactly the pairs of distinct playable moves, and the winner
   * is always the side whose move beats the other's.
   */
  function Duel(move1: Option<Move>, move2: Option<Move>): (r: Option<(Side, Move)>)
    ensures r.Some? <==> IsPlayable(move1) && IsPlayable(move2) && move1 != move2
    ensures r.Some? && r.value.0 == First ==> move1 == Some(r.value.1) && Beats(r.value.1, move2.value)
    ensures r.Some? && r.value.0 == Second ==> move2 == Some(r.value.1) && Beats(r.value.1, move1.value)
  {
    if move1 == Some(Paper) then
      if move2 == Some(Rock) then Some((First, Paper))
      else if move2 == Some(Scissors) then Some((Second, Scissors))
      else None
    else if move1 == Some(Scissors) then
      if move2 == Some(Rock) then Some((Second, Rock))
      else if move2 == Some(Paper) then Some((First, Scissors))
      else None
    else if move1 == Some(Rock) then
      if move2 == Some(Scissors) then Some((First, Rock))
      else if move2 == Some(Paper) then Some((Second, Paper))
      else None
    else None
  }

  /** `res` names participant `w` as winner over participant `l`, with `w`'s move, which beats `l`'s. */
  predicate WinsOver(s: GameState, w: nat, l: nat, res: GameResult) {
    && w < |s.usersIds| && l < |s.usersIds|
    && res.winnerId == s.usersIds[w] && res.loserId == s.usersIds[l]
    && MoveOf(s, w) == Some(res.move)
    && MoveOf(s, l).Some? && Beats(res.move, MoveOf(s, l).value)
  }

  /**
   * `resolveGame`: never changes the match. Ended first, then fewer than two moves, then a tie
   * when both participants' moves are equal, otherwise the winner by the dominance rule, and
   * `UnknownMove` when a move is missing or is not one of the three.
   */
  function Resolve(s: GameState): (r: ResolveResult)
    ensures s.status == Ended ==> r == NotResolved(ResolveReason.GameEnded)
    ensures s.status == Started && |s.moves| < 2 ==> r == NotResolved(NotAllUsersPlayed)
    ensures r == NoWinner <==> s.status == Started && |s.moves| >= 2 && MoveOf(s, 0) == MoveOf(s, 1)
    ensures r.Winner? <==>
              && s.status == Started && |s.moves| >= 2 && MoveOf(s, 0) != MoveOf(s, 1)
              && IsPlayable(MoveOf(s, 0)) && IsPlayable(MoveOf(s, 1))
    ensures r.Winner? ==> WinsOver(s, 0, 1, r.gameResult) || WinsOver(s, 1, 0, r.gameResult)
    ensures r == NotResolved(UnknownMove) <==>
              && s.status == Started && |s.moves| >= 2 && MoveOf(s, 0) != MoveOf(s, 1)
              && !(IsPlayable(MoveOf(s, 0)) && IsPlayable(MoveOf(s, 1)))
  {
    if s.status != Started then NotResolved(ResolveReason.GameEnded)
    else if |s.moves| < 2 then NotResolved(NotAllUsersPlayed)
    else
      var move1, move2 := MoveOf(s, 0), MoveOf(s, 1);
      if move1 == move2 then NoWinner
      else match Duel(move1, move2)
        case None => NotResolved(UnknownMove)
        case Some((First, move)) => Winner(GameResult(s.usersIds[0], s.usersIds[1], move))
        case Some((Second, move)) => Winner(GameResult(s.usersIds[1], s.usersIds[0], move))
  }

  /** `endGame`: the terminal transition; participants and moves are kept. */
  function EndStep(s: GameState): (t: GameState)
    ensures t.status == Ended && t.usersIds == s.usersIds && t.moves == s.moves
    ensures ValidState(s) ==> ValidState(t)
  {
    s.(status := Ended)
  }

  /** A valid match never holds more moves than participants, and two moves mean both have played. */
  lemma {:induction false} MovesWithinParticipants(s: GameState)
    requires ValidState(s)
    ensures |s.moves| <= |s.usersIds| <= 2
    ensures |s.moves| >= 2 ==> |s.usersIds| == 2 && MoveOf(s, 0).Some? && MoveOf(s, 1).Some?
  {
    var keys := s.moves.Keys;
    if |s.usersIds| == 0 {
      assert keys == {};
    } else if |s.usersIds| == 1 {
      assert keys <= {s.usersIds[0]};
      SubsetCard(keys, {s.usersIds[0]});
    } else {
      var both := {s.usersIds[0], s.usersIds[1]};
      assert keys <= both;
      SubsetCard(keys, both);
      if |keys| >= 2 {
        SubsetCard(both - keys, both);
        if s.usersIds[0] !in keys {
          SubsetCard(keys, {s.usersIds[1]});
        } else if s.usersIds[1] !in keys {
          SubsetCard(keys, {s.usersIds[0]});
        }
      }
    }
  }

  lemma SubsetCard<T>(a: set<T>, b: set<T>)
    requires a <= b
    ensures |a| <= |b|
  {
    assert b == a + (b - a);
  }

  /** In a valid, Started match where both have played, resolution reports a winner or a tie
      unless one of the stored moves is Unknown. */
  lemma {:induction false} ResolveDecidesValidMoves(s: GameState)
    requires ValidState(s) && s.status == Started && |s.moves| >= 2
    requires forall u :: u in s.moves ==> s.moves[u] != Unknown
    ensures Resolve(s).Winner? || Resolve(s) == NoWinner
  {
    MovesWithinParticipants(s);
  }

  /** The moves of the two participants exchanged. */
  function SwapMoves(s: GameState): (t: GameState)
    requires |s.usersIds| == 2 && s.usersIds[0] in s.moves && s.usersIds[1] in s.moves
    ensures t.usersIds == s.usersIds && t.status == s.status && t.moves.Keys == s.moves.Keys
  {
    var u1, u2 := s.usersIds[0], s.usersIds[1];
    s.(moves := s.moves[u1 := s.moves[u2]][u2 := s.moves[u1]])
  }

  /** Swapping the two participants' moves swaps winner and loser and keeps the winning move;
      every other outcome is unaffected. */
  lemma {:induction false} ResolveSwapsWinner(s: GameState)
    requires |s.usersIds| == 2 && s.usersIds[0] != s.usersIds[1]
    requires s.usersIds[0] in s.moves && s.usersIds[1] in s.moves
    ensures Resolve(SwapMoves(s)) ==
              match Resolve(s)
              case Winner(g) => Winner(GameResult(g.loserId, g.winnerId, g.move))
              case other => other
  {
    var t := SwapMoves(s);
    assert |t.moves| == |s.moves|;
    assert MoveOf(t, 0) == MoveOf(s, 1) && MoveOf(t, 1) == MoveOf(s, 0);
  }

  /** Two distinct participants, in either order, who have both stored real moves. */
  predicate BothMoved(s: GameState, me: string, them: string, mine: Move, theirs: Move) {
    && (s.usersIds == [me, them] || s.usersIds == [them, me])
    && s.moves == map[them := theirs, me := mine]
    && s.status == Started
    && me != them && mine != Unknown && theirs != Unknown
  }

  /**
   * Resolution by participant, whichever position each holds: equal moves tie, otherwise the
   * participant whose move beats the other's wins with that move.
   */
  lemma {:induction false} ResolveBetween(s: GameState, me: string, them: string, mine: Move, theirs: Move)
    requires BothMoved(s, me, them, mine, theirs)
    ensures mine == theirs ==> Resolve(s) == NoWinner
    ensures Beats(mine, theirs) ==> Resolve(s) == Winner(GameResult(me, them, mine))
    ensures Beats(theirs, mine) ==> Resolve(s) == Winner(GameResult(them, me, theirs))
  {
    assert |s.moves| == 2 by {
      assert s.moves.Keys == {them, me};
    }
    var mySide, theirSide := if s.usersIds[0] == me then 0 else 1, if s.usersIds[0] == me then 1 else 0;
    assert MoveOf(s, mySide) == Some(mine) && MoveOf(s, theirSide) == Some(theirs);
    match Resolve(s)
    case NotResolved(_) =>
    case NoWinner =>
    case Winner(res) =>
      if Beats(mine, theirs) {
        assert WinsOver(s, mySide, theirSide, res);
      } else {
        assert WinsOver(s, theirSide, mySide, res);
      }
  }

  /** Ended is absorbing: every later join, move or resolution reports `game_ended` and changes
      nothing, and ending again is a no-op. */
  lemma EndedIsAbsorbing(s: GameState, userId: string, move: Move)
    ensures AddUserStep(EndStep(s), userId) == (NotAdded(AddUserReason.GameEnded), EndStep(s))
    ensures PlayMoveStep(EndStep(s), userId, move) == (MoveNotPlayed(PlayMoveReason.GameEnded), EndStep(s))
    ensures Resolve(EndStep(s)) == NotResolved(ResolveReason.GameEnded)
    ensures EndStep(EndStep(s)) == EndStep(s)
  {
  }

  /** A match held in mutable fields, as the registry and the service share it. */
  class Game {
    const gameId: string
    var usersIds: seq<string>
    var moves: map<string, Move>
    var status: Status

    function State(): GameState
      reads this
    {
      GameState(usersIds, moves, status)
    }

    ghost predicate Valid()
      reads this
    {
      ValidState(State())
    }

    constructor (gameId: string, userId: string)
      ensures this.gameId == gameId && State() == NewGame(userId) && Valid()
    {
      this.gameId := gameId;
      usersIds := [userId];
      status := Started;
      moves := map[];
    }

    /** `isOngoing`: a match is ongoing exactly when ending it would change it. */
    predicate IsOngoing(): (r: bool)
      reads this
      ensures r <==> EndStep(State()) != State()
    {
      status == Started
    }

    method AddUser(userId: string) returns (r: AddUserResult)
      modifies this
      ensures (r, State()) == AddUserStep(old(State()), userId)
      ensures old(Valid()) ==> Valid()
    {
      if !IsOngoing() {
        return NotAdded(AddUserReason.GameEnded);
      }
      if |usersIds| == 0 {
        return NotAdded(NoUserInGame);
      }
      if |usersIds| > 1 {
        return NotAdded(GameFull);
      }
      if usersIds[0] == userId {
        return NotAdded(UserAlreadyInGame);
      }
      usersIds := usersIds + [userId];
      r := Added;
    }

    method PlayMove(userId: string, move: Move) returns (r: PlayMoveResult)
      modifies this
      ensures (r, State()) == PlayMoveStep(old(State()), userId, move)
      ensures old(Valid()) ==> Valid()
    {
      if !IsOngoing() {
        return MoveNotPlayed(PlayMoveReason.GameEnded);
      }
      if userId in moves && moves[userId].IsTruthy() {
        return MoveNotPlayed(UserAlreadyPlayedMove);
      }
      if |moves| > 1 {
        return MoveNotPlayed(AllPlayersPlayed);
      }
      if userId !in usersIds {
        return MoveNotPlayed(UserNotAdded);
      }
      moves := moves[userId := move];
      r := MovePlayed(moves);
    }

    /** `resolveGame` only reads the match; a winner and a loser are its two participants. */
    function ResolveGame(): (r: ResolveResult)
      reads this
      ensures r.Winner? ==>
                && |usersIds| >= 2
                && {r.gameResult.winnerId, r.gameResult.loserId} == {usersIds[0], usersIds[1]}
    {
      Resolve(State())
    }

    method EndGame()
      modifies this
      ensures State() == EndStep(old(State()))
      ensures old(Valid()) ==> Valid()
    {
      status := Ended;
    }
  }
}

=== FILE: games.dfy ===
/**
 * The registry of active matches, keyed by an id that does not depend on the order in which
 * the two participants are given.
 */
module Registry {
  import opened Wrappers
  import opened GameModel

  /**
   * JavaScript's `<` on strings, which the default array sort uses: lexicographic comparison
   * character by character, a proper prefix coming first.
   */
  predicate Precedes(a: string, b: string): (r: bool)
    decreases |a|
    ensures r <==> ProperPrefix(a, b) || exists k :: FirstDifferenceLess(a, b, k)
  {
    if |b| == 0 then false
    else if |a| == 0 then
      assert ProperPrefix(a, b);
      true
    else if a[0] != b[0] then
      assert a[..0] == b[..0];
      assert a[0] < b[0] ==> FirstDifferenceLess(a, b, 0);
      assert !ProperPrefix(a, b) by {
        if |a| < |b| {
          assert b[..|a|][0] == b[0];
        }
      }
      assert forall k :: FirstDifferenceLess(a, b, k) ==> k == 0;
      a[0] < b[0]
    else
      assert forall k :: FirstDifferenceLess(a[1..], b[1..], k) ==> FirstDifferenceLess(a, b, k + 1) by {
        forall k | FirstDifferenceLess(a[1..], b[1..], k)
          ensures FirstDifferenceLess(a, b, k + 1)
        {
          assert a[..k + 1] == [a[0]] + a[1..][..k];
          assert b[..k + 1] == [b[0]] + b[1..][..k];
        }
      }
      assert forall k :: FirstDifferenceLess(a, b, k) ==> k > 0 && FirstDifferenceLess(a[1..], b[1..], k - 1) by {
        forall k | FirstDifferenceLess(a, b, k)
          ensures k > 0 && FirstDifferenceLess(a[1..], b[1..], k - 1)
        {
          assert a[..k][1..] == a[1..][..k - 1];
          assert b[..k][1..] == b[1..][..k - 1];
        }
      }
      assert ProperPrefix(a, b) <==> ProperPrefix(a[1..], b[1..]) by {
        if ProperPrefix(a, b) {
          assert a[1..] == b[..|a|][1..];
        }
        if ProperPrefix(a[1..], b[1..]) {
          assert a == [a[0]] + a[1..];
          assert b[..|a|] == [b[0]] + b[1..][..|a| - 1];
        }
      }
      Precedes(a[1..], b[1..])
  }

  /** `a` is a proper prefix of `b`. */
  predicate ProperPrefix(a: string, b: string) {
    |a| < |b| && a == b[..|a|]
  }

  /** `a` and `b` agree before position `k` and differ there, `a` holding the smaller character. */
  predicate FirstDifferenceLess(a: string, b: string, k: int) {
    0 <= k < |a| && k < |b| && a[..k] == b[..k] && a[k] < b[k]
  }

  lemma {:induction false} PrecedesIrreflexive(a: string)
    ensures !Precedes(a, a)
    decreases |a|
  {
    if |a| > 0 {
      PrecedesIrreflexive(a[1..]);
    }
  }

  lemma {:induction false} PrecedesAsymmetric(a: string, b: string)
    ensures Precedes(a, b) ==> !Precedes(b, a)
    decreases |a|
  {
    if |a| > 0 && |b| > 0 && a[0] == b[0] {
      PrecedesAsymmetric(a[1..], b[1..]);
    }
  }

  /** Two different strings are always ordered one way or the other. */
  lemma {:induction false} PrecedesTotal(a: string, b: string)
    requires a != b
    ensures Precedes(a, b) || Precedes(b, a)
    decreases |a|
  {
    if |a| > 0 && |b| > 0 && a[0] == b[0] {
      assert a == [a[0]] + a[1..] && b == [b[0]] + b[1..];
      PrecedesTotal(a[1..], b[1..]);
    }
  }

  lemma {:induction false} PrecedesTransitive(a: string, b: string, c: string)
    requires Precedes(a, b) && Precedes(b, c)
    ensures Precedes(a, c)
    decreases |a|
  {
    if |a| > 0 && a[0] == b[0] && b[0] == c[0] {
      PrecedesTransitive(a[1..], b[1..], c[1..]);
    }
  }

  /** `[a, b].sort()`: the pair in ascending order, left as it is when neither precedes the other. */
  function SortPair(a: string, b: string): (r: (string, string))
    ensures (r.0 == a && r.1 == b) || (r.0 == b && r.1 == a)
    ensures !Precedes(r.1, r.0)
  {
    PrecedesAsymmetric(a, b);
    if Precedes(b, a) then (b, a) else (a, b)
  }

  /** The error `initiateGame` throws when the id is taken. */
  datatype RegistryError = GameAlreadyExists(id: string)

  /** The single registry instance of the running service. */
  class Games {
    var gamesList: map<string, Game>

    /** Every match is stored under its own id, so distinct keys hold distinct matches. */
    ghost predicate Valid()
      reads this
    {
      forall id :: id in gamesList ==> gamesList[id].gameId == id
    }

    constructor ()
      ensures Valid() && gamesList == map[]
    {
      gamesList := map[];
    }

    /** `computeGameId`: sort the two user ids and join them with "-". */
    static function ComputeGameId(userId1: string, userId2: string): (id: string)
      ensures id == userId1 + "-" + userId2 || id == userId2 + "-" + userId1
      ensures Precedes(userId1, userId2) ==> id == userId1 + "-" + userId2
      ensures Precedes(userId2, userId1) ==> id == userId2 + "-" + userId1
    {
      var sorted := SortPair(userId1, userId2);
      sorted.0 + "-" + sorted.1
    }

    function GetGame(id: string): (r: Option<Game>)
      reads this
      ensures r.Some? <==> id in gamesList
      ensures r.Some? ==> r.value == gamesList[id]
      ensures r.Some? && Valid() ==> r.value.gameId == id
    {
      if id in gamesList then Some(gamesList[id]) else None
    }

    method InitiateGame(id: string, userId: string) returns (r: Result<Game, RegistryError>)
      requires Valid()
      modifies this
      ensures Valid()
      ensures id in old(gamesList) ==> r == Failure(GameAlreadyExists(id)) && gamesList == old(gamesList)
      ensures id !in old(gamesList) ==>
                && r.Success? && fresh(r.value)
                && r.value.gameId == id && r.value.State() == NewGame(userId)
                && gamesList == old(gamesList)[id := r.value]
    {
      var existing := GetGame(id);
      if existing.Some? {
        return Failure(GameAlreadyExists(id));
      }
      var game := new Game(id, userId);
      gamesList := gamesList[id := game];
      r := Success(game);
    }

    method EndGame(game: Game)
      requires Valid()
      modifies this, game
      ensures Valid()
      ensures game.State() == EndStep(old(game.State()))
      ensures gamesList == old(gamesList) - {game.gameId}
    {
      game.EndGame();
      gamesList := gamesList - {game.gameId};
    }
  }

  /** The id is the same whichever participant is named first. */
  lemma ComputeGameIdSymmetric(a: string, b: string)
    ensures Games.ComputeGameId(a, b) == Games.ComputeGameId(b, a)
  {
    if a != b {
      PrecedesTotal(a, b);
    }
  }

  /** Splitting at the first separator recovers both parts when neither contains it. */
  lemma {:induction false} JoinedPartsUnique(x: string, y: string, x': string, y': string)
    requires '-' !in x && '-' !in x'
    requires x + "-" + y == x' + "-" + y'
    ensures x == x' && y == y'
  {
    var s := x + "-" + y;
    assert s[|x|] == '-' && s[|x'|] == '-';
    assert forall i :: 0 <= i < |x| ==> s[i] == x[i];
    assert forall i :: 0 <= i < |x'| ==> s[i] == x'[i];
    assert |x| == |x'|;
    assert x == s[..|x|] == x';
    assert y == s[|x| + 1..] == y';
  }

  /** For ids without "-", the game id determines the unordered pair of participants. */
  lemma ComputeGameIdDeterminesPair(a: string, b: string, c: string, d: string)
    requires '-' !in a && '-' !in b && '-' !in c && '-' !in d
    requires Games.ComputeGameId(a, b) == Games.ComputeGameId(c, d)
    ensures (a == c && b == d) || (a == d && b == c)
  {
    var p, q := SortPair(a, b), SortPair(c, d);
    JoinedPartsUnique(p.0, p.1, q.0, q.1);
  }

  /** With "-" inside an id, two different pairs share one game id. */
  lemma ComputeGameIdCollidesOnDash()
    ensures Games.ComputeGameId("a-b", "c") == Games.ComputeGameId("a", "b-c") == "a-b-c"
  {
    assert Precedes("a-b", "c");
    assert Precedes("a", "b-c");
  }
}

=== FILE: shifubriq.dfy ===
/**
 * The Shifubriq service: starting or joining a match from a slash-command, and playing a move
 * from an interactive button.
 *
 * Each request runs atomically against the one registry. Its outcome is stated first as a pure
 * function over a snapshot of the registry (match id to match state); the methods that drive
 * the real `Games` and `Game` objects are proved to produce exactly that outcome. Chat messages
 * and the payout are not sent: they are returned, in order, as a list of effects.
 */
module Shifubriq {
  import opened Wrappers
  import opened GameModel
  import opened Registry
  import opened UsernameParser

  /**
   * `getUsersNames` over a snapshot of the chat's user directory (id to display name): every id
   * needs a non-empty name, otherwise the lookup fails.
   */
  function GetUsersNames(directory: map<string, string>, ids: seq<string>): (r: Option<seq<string>>)
    ensures r.Some? <==> forall i :: 0 <= i < |ids| ==> ids[i] in directory && directory[ids[i]] != ""
    ensures r.Some? ==> |r.value| == |ids| && forall i :: 0 <= i < |ids| ==> r.value[i] == directory[ids[i]]
  {
    if |ids| == 0 then Some([])
    else if ids[0] !in directory || directory[ids[0]] == "" then None
    else match GetUsersNames(directory, ids[1..])
      case None => None
      case Some(rest) => Some([directory[ids[0]]] + rest)
  }

  /** The lookup of two named users gives their two names, in order. */
  lemma NamesOfPair(directory: map<string, string>, x: string, y: string)
    requires x in directory && y in directory && directory[x] != "" && directory[y] != ""
    ensures GetUsersNames(directory, [x, y]) == Some([directory[x], directory[y]])
  {
    var r := GetUsersNames(directory, [x, y]);
    assert r.Some? && |r.value| == 2;
    assert r.value[0] == directory[x] && r.value[1] == directory[y];
    assert r.value == [r.value[0], r.value[1]];
  }

  datatype User = User(id: string, name: string)

  /** The messages and the transfer the service triggers, in the order it triggers them. */
  datatype Effect =
    | GameCreated(initiator: User, opponent: User)
    | ActionPrompts(usersIds: seq<string>, gameId: string)
    | TieResult(usersIds: seq<string>)
    | Payout(fromName: string, toName: string)
    | WinnerResult(winner: User, loser: User)

  /** The errors the service throws instead of returning. */
  datatype ServiceError =
    | NameNotFound
    | DuplicateGame(id: string)
    | JoinFailed(addReason: AddUserReason)
    | MissingGame
    | MoveFailed(moveReason: PlayMoveReason)
    | ResolveFailed(resolveReason: ResolveReason)

  /** What a request's promise settles to: a returned value or a thrown error. */
  datatype Reply<+T> = Returned(value: T) | Threw(error: ServiceError)

  datatype InitiateReason = StillWaiting | NoReceiverId | NoUserName | TooManyArguments | NoArgument
  datatype InitiateResult = GameInitiated | GameNotInitiated(reason: InitiateReason)

  datatype JoinResult = StillWaiting | GameJoined

  datatype NotPlayedReason = UnknownAction
  datatype PlayResult = Tie | Win(winnerName: string, loserName: string) | NotPlayed(reason: NotPlayedReason) | Pending

  /** The interactive action a button press delivers. */
  datatype Action = Action(name: string, value: Move)

  /** A request's outcome: its reply, the registry afterwards and the effects it triggered. */
  datatype Step<+T> = Step(reply: Reply<T>, registry: map<string, GameState>, effects: seq<Effect>)

  /** The registry invariant: every registered match is valid and still Started. */
  predicate ActiveRegistry(reg: map<string, GameState>) {
    forall id :: id in reg ==> ValidState(reg[id]) && reg[id].status == Started
  }

  /** A parse failure is reported under the same reason. */
  function NotInitiatedReason(reason: NotFoundReason): (r: InitiateReason)
    ensures r != InitiateReason.StillWaiting && r != NoReceiverId
  {
    match reason
    case NoArgument => InitiateReason.NoArgument
    case TooManyArguments => InitiateReason.TooManyArguments
    case NoUserName => InitiateReason.NoUserName
  }

  /**
   * `createGame`: both names are looked up first; only then is the match registered, which
   * throws when the id is taken. The "game created" messages name both players.
   */
  function CreateGameSpec(reg: map<string, GameState>, initiatorId: string, opponentId: string,
                          gameId: string, directory: map<string, string>): (st: Step<()>)
    ensures st.reply.Returned? <==>
              GetUsersNames(directory, [initiatorId, opponentId]).Some? && gameId !in reg
    ensures st.reply.Returned? ==> initiatorId in directory && opponentId in directory
    ensures st.reply.Returned? ==>
              && st.registry == reg[gameId := NewGame(initiatorId)]
              && st.effects == [GameCreated(User(initiatorId, directory[initiatorId]), User(opponentId, directory[opponentId]))]
    ensures st.reply.Threw? ==> st.registry == reg && st.effects == []
    ensures st.reply.Threw? ==> st.reply.error == NameNotFound || st.reply.error == DuplicateGame(gameId)
    ensures ActiveRegistry(reg) ==> ActiveRegistry(st.registry)
  {
    match GetUsersNames(directory, [initiatorId, opponentId])
    case None => Step(Threw(NameNotFound), reg, [])
    case Some(names) =>
      if gameId in reg then Step(Threw(DuplicateGame(gameId)), reg, [])
      else
        Step(Returned(()), reg[gameId := NewGame(initiatorId)],
             [GameCreated(User(initiatorId, names[0]), User(opponentId, names[1]))])
  }

  /**
   * `joinGame`: the first participant asking again is told to keep waiting; anyone else is
   * added, and a rejected join throws. A join sends the move prompts to both participants.
   */
  function JoinGameSpec(g: GameState, gameId: string, joinerId: string): (out: (Reply<JoinResult>, GameState, seq<Effect>))
    ensures out.0 == Returned(GameJoined) <==>
              g.status == Started && |g.usersIds| == 1 && g.usersIds[0] != joinerId
    ensures out.0 == Returned(GameJoined) ==>
              out.1 == g.(usersIds := g.usersIds + [joinerId]) && out.2 == [ActionPrompts(out.1.usersIds, gameId)]
    ensures out.0 != Returned(GameJoined) ==> out.1 == g && out.2 == []
    ensures out.0 == Returned(JoinResult.StillWaiting) <==> |g.usersIds| > 0 && g.usersIds[0] == joinerId
    ensures out.0.Threw? <==>
              !(|g.usersIds| > 0 && g.usersIds[0] == joinerId) && AddUserStep(g, joinerId).0.NotAdded?
    ensures out.0.Threw? ==> out.0.error == JoinFailed(AddUserStep(g, joinerId).0.reason)
    ensures ValidState(g) ==> ValidState(out.1)
  {
    if |g.usersIds| > 0 && g.usersIds[0] == joinerId then (Returned(JoinResult.StillWaiting), g, [])
    else
      var (added, next) := AddUserStep(g, joinerId);
      if added.NotAdded? then (Threw(JoinFailed(added.reason)), next, [])
      else (Returned(GameJoined), next, [ActionPrompts(next.usersIds, gameId)])
  }

  /**
   * The join branch of `initiateShifubriqGame`: the registered match is joined and stays
   * registered; a repeated request by its first participant is told to wait.
   */
  function JoinRegistered(reg: map<string, GameState>, gameId: string, joinerId: string): (st: Step<InitiateResult>)
    requires gameId in reg
    ensures ActiveRegistry(reg) ==> ActiveRegistry(st.registry)
    ensures st.registry.Keys == reg.Keys
    ensures forall id :: id in reg && id != gameId ==> st.registry[id] == reg[id]
    ensures st.reply == Returned(GameInitiated) <==>
              reg[gameId].status == Started && |reg[gameId].usersIds| == 1 && reg[gameId].usersIds[0] != joinerId
    ensures st.reply.Returned? ==>
              st.reply.value == GameInitiated || st.reply.value == GameNotInitiated(InitiateReason.StillWaiting)
    ensures st.reply == Returned(GameNotInitiated(InitiateReason.StillWaiting)) <==>
              |reg[gameId].usersIds| > 0 && reg[gameId].usersIds[0] == joinerId
    ensures st.reply.Threw? <==>
              !(|reg[gameId].usersIds| > 0 && reg[gameId].usersIds[0] == joinerId)
              && AddUserStep(reg[gameId], joinerId).0.NotAdded?
    ensures st.reply.Threw? ==> st.reply.error == JoinFailed(AddUserStep(reg[gameId], joinerId).0.reason)
    ensures st.reply == Returned(GameInitiated) ==>
              var g := reg[gameId].(usersIds := reg[gameId].usersIds + [joinerId]);
              st.registry == reg[gameId := g] && st.effects == [ActionPrompts(g.usersIds, gameId)]
    ensures st.reply != Returned(GameInitiated) ==> st.registry == reg && st.effects == []
  {
    var (joined, g, effects) := JoinGameSpec(reg[gameId], gameId, joinerId);
    var reply := match joined
      case Threw(e) => Threw(e)
      case Returned(outcome) =>
        if outcome.StillWaiting? then Returned(GameNotInitiated(InitiateReason.StillWaiting)) else Returned(GameInitiated);
    Step(reply, reg[gameId := g], effects)
  }

  /**
   * `initiateShifubriqGame` once the opponent is known: create the match under the computed
   * id, or join the one registered there. Only that entry can change and nothing is removed.
   */
  function InitiateAgainst(reg: map<string, GameState>, initiatorId: string, opponentId: string,
                           directory: map<string, string>): (st: Step<InitiateResult>)
    ensures ActiveRegistry(reg) ==> ActiveRegistry(st.registry)
    ensures var gameId := Games.ComputeGameId(initiatorId, opponentId);
            && reg.Keys <= st.registry.Keys <= reg.Keys + {gameId}
            && forall id :: id in reg && id != gameId ==> st.registry[id] == reg[id]
    ensures !(st.reply.Threw? && st.reply.error.DuplicateGame?)
    ensures st.reply != Returned(GameNotInitiated(NoReceiverId))
    ensures var gameId := Games.ComputeGameId(initiatorId, opponentId);
            gameId !in reg && GetUsersNames(directory, [initiatorId, opponentId]).None? ==>
              st == Step(Threw(NameNotFound), reg, [])
    ensures var gameId := Games.ComputeGameId(initiatorId, opponentId);
            gameId !in reg && GetUsersNames(directory, [initiatorId, opponentId]).Some? ==>
              && initiatorId in directory && opponentId in directory
              && st.reply == Returned(GameInitiated)
              && st.registry == reg[gameId := NewGame(initiatorId)]
              && st.effects == [GameCreated(User(initiatorId, directory[initiatorId]), User(opponentId, directory[opponentId]))]
    ensures var gameId := Games.ComputeGameId(initiatorId, opponentId);
            gameId in reg ==> st == JoinRegistered(reg, gameId, initiatorId)
  {
    var gameId := Games.ComputeGameId(initiatorId, opponentId);
    if gameId !in reg then
      var created := CreateGameSpec(reg, initiatorId, opponentId, gameId, directory);
      var reply := if created.reply.Returned? then Returned(GameInitiated) else Threw(created.reply.error);
      Step(reply, created.registry, created.effects)
    else JoinRegistered(reg, gameId, initiatorId)
  }

  /**
   * `initiateShifubriqGame`: a text that names no single opponent is answered with the parser's
   * reason and changes nothing; otherwise the match with that opponent is created or joined.
   * The `NoReceiverId` answer is never given and a duplicate match is never attempted.
   */
  function Initiate(reg: map<string, GameState>, initiatorId: string, text: string,
                    directory: map<string, string>): (st: Step<InitiateResult>)
    ensures ActiveRegistry(reg) ==> ActiveRegistry(st.registry)
    ensures GetUsernameFromString(text).NotFound? ==>
              && st.registry == reg && st.effects == []
              && st.reply == Returned(GameNotInitiated(NotInitiatedReason(GetUsernameFromString(text).reason)))
    ensures GetUsernameFromString(text).Found? ==>
              var gameId := Games.ComputeGameId(initiatorId, GetUsernameFromString(text).opponent.id);
              && reg.Keys <= st.registry.Keys <= reg.Keys + {gameId}
              && forall id :: id in reg && id != gameId ==> st.registry[id] == reg[id]
    ensures GetUsernameFromString(text).Found? ==>
              st == InitiateAgainst(reg, initiatorId, GetUsernameFromString(text).opponent.id, directory)
    ensures !(st.reply.Threw? && st.reply.error.DuplicateGame?)
    ensures st.reply != Returned(GameNotInitiated(NoReceiverId))
  {
    match GetUsernameFromString(text)
    case NotFound(reason) => Step(Returned(GameNotInitiated(NotInitiatedReason(reason))), reg, [])
    case Found(opponent) => InitiateAgainst(reg, initiatorId, opponent.id, directory)
  }

  /**
   * Announcing a decided match: both names are looked up, and a missing one throws; otherwise,
   * in production, the loser pays the winner, and the result names the winner first.
   */
  function Award(res: GameResult, directory: map<string, string>, production: bool): (out: (Reply<PlayResult>, seq<Effect>))
    ensures out.0.Threw? <==> GetUsersNames(directory, [res.winnerId, res.loserId]).None?
    ensures out.0.Threw? ==> out.0.error == NameNotFound && out.1 == []
    ensures out.0.Returned? ==> res.winnerId in directory && res.loserId in directory
    ensures out.0.Returned? ==>
              var winner, loser := User(res.winnerId, directory[res.winnerId]), User(res.loserId, directory[res.loserId]);
              && out.0 == Returned(Win(winner.name, loser.name))
              && out.1 == (if production then [Payout(loser.name, winner.name)] else []) + [WinnerResult(winner, loser)]
  {
    match GetUsersNames(directory, [res.winnerId, res.loserId])
    case None => (Threw(NameNotFound), [])
    case Some(names) =>
      var winner, loser := User(res.winnerId, names[0]), User(res.loserId, names[1]);
      var payout := if production then [Payout(loser.name, winner.name)] else [];
      (Returned(Win(winner.name, loser.name)), payout + [WinnerResult(winner, loser)])
  }

  /**
   * The second move's aftermath: the match registered under `gameId` is resolved; a resolution
   * failure throws and keeps it registered, a tie or a win ends it and removes it.
   */
  function Settle(reg: map<string, GameState>, gameId: string,
                  directory: map<string, string>, production: bool): (st: Step<PlayResult>)
    requires gameId in reg
    ensures ActiveRegistry(reg) ==> ActiveRegistry(st.registry)
    ensures st.registry == reg || st.registry == reg - {gameId}
    ensures st.reply.Returned? ==> st.registry == reg - {gameId} && (st.reply.value == Tie || st.reply.value.Win?)
    ensures st.reply == Returned(Tie) <==> Resolve(reg[gameId]) == NoWinner
    ensures Resolve(reg[gameId]).NotResolved? ==>
              st == Step(Threw(ResolveFailed(Resolve(reg[gameId]).reason)), reg, [])
    ensures Resolve(reg[gameId]) == NoWinner ==> st.registry == reg - {gameId} && st.effects == [TieResult(reg[gameId].usersIds)]
    ensures Resolve(reg[gameId]).Winner? ==>
              var res := Resolve(reg[gameId]).gameResult;
              && st.registry == reg - {gameId}
              && (st.reply.Threw? <==> GetUsersNames(directory, [res.winnerId, res.loserId]).None?)
              && (st.reply, st.effects) == Award(res, directory, production)
    ensures (exists e :: e in st.effects && e.Payout?) ==> production && st.reply.Returned? && st.reply.value.Win?
  {
    var g := reg[gameId];
    match Resolve(g)
    case NotResolved(reason) => Step(Threw(ResolveFailed(reason)), reg, [])
    case NoWinner => Step(Returned(Tie), reg - {gameId}, [TieResult(g.usersIds)])
    case Winner(res) =>
      var (reply, effects) := Award(res, directory, production);
      Step(reply, reg - {gameId}, effects)
  }

  /**
   * A decided match whose winner's or loser's name is missing: the match is already removed,
   * the lookup error is thrown, and neither payout nor result message is sent.
   */
  lemma WinWithoutNamesThrows(reg: map<string, GameState>, gameId: string,
                              directory: map<string, string>, production: bool)
    requires gameId in reg && Resolve(reg[gameId]).Winner?
    requires var res := Resolve(reg[gameId]).gameResult;
             res.winnerId !in directory || res.loserId !in directory
    ensures Settle(reg, gameId, directory, production) == Step(Threw(NameNotFound), reg - {gameId}, [])
  {
  }

  /**
   * `playShifubriqGame`: only the "game" action is played. A first move leaves the match
   * pending; a second resolves it, and a tie or a win removes it from the registry (a win also
   * pays, in production, from the loser to the winner). Rejections throw.
   */
  function Play(reg: map<string, GameState>, gameId: string, userId: string, action: Action,
                directory: map<string, string>, production: bool): (st: Step<PlayResult>)
    ensures ActiveRegistry(reg) ==> ActiveRegistry(st.registry)
    ensures st.registry.Keys <= reg.Keys
    ensures forall id :: id in reg && id != gameId ==> id in st.registry && st.registry[id] == reg[id]
    ensures st.reply == Returned(NotPlayed(UnknownAction)) <==> action.name != "game"
    ensures action.name != "game" ==> st.registry == reg && st.effects == []
    ensures action.name == "game" && gameId !in reg ==> st == Step(Threw(MissingGame), reg, [])
    ensures action.name == "game" && gameId in reg ==>
              var (played, g) := PlayMoveStep(reg[gameId], userId, action.value);
              && (played.MoveNotPlayed? ==> st == Step(Threw(MoveFailed(played.reason)), reg, []))
              && (played.MovePlayed? && |played.moves| == 1 ==> st == Step(Returned(Pending), reg[gameId := g], []))
              && (played.MovePlayed? && |played.moves| == 2 ==> st == Settle(reg[gameId := g], gameId, directory, production))
              && (played.MovePlayed? && |played.moves| == 2 && Resolve(g).NotResolved? ==>
                    st.reply == Threw(ResolveFailed(Resolve(g).reason)) && st.registry == reg[gameId := g])
    ensures st.reply == Returned(Pending) ==> gameId in st.registry && |st.registry[gameId].moves| == 1
    ensures st.reply == Returned(Tie) || (st.reply.Returned? && st.reply.value.Win?) ==>
              gameId in reg && gameId !in st.registry
    ensures (exists e :: e in st.effects && e.Payout?) ==> production && st.reply.Returned? && st.reply.value.Win?
  {
    if action.name != "game" then Step(Returned(NotPlayed(UnknownAction)), reg, [])
    else if gameId !in reg then Step(Threw(MissingGame), reg, [])
    else
      var (played, g) := PlayMoveStep(reg[gameId], userId, action.value);
      if played.MoveNotPlayed? then Step(Threw(MoveFailed(played.reason)), reg, [])
      else if |played.moves| == 1 then Step(Returned(Pending), reg[gameId := g], [])
      else Settle(reg[gameId := g], gameId, directory, production)
  }

  /** The second move of a match is recorded, and the match is then settled. */
  lemma SecondMoveSettles(reg: map<string, GameState>, gameId: string, userId: string, other: string,
                          mine: Move, theirs: Move, directory: map<string, string>, production: bool)
    requires ActiveRegistry(reg) && gameId in reg
    requires reg[gameId].usersIds == [userId, other] || reg[gameId].usersIds == [other, userId]
    requires reg[gameId].moves == map[other := theirs]
    requires mine != Unknown && theirs != Unknown
    ensures var g := reg[gameId].(moves := map[other := theirs, userId := mine]);
            && BothMoved(g, userId, other, mine, theirs)
            && Play(reg, gameId, userId, Action("game", mine), directory, production)
               == Settle(reg[gameId := g], gameId, directory, production)
  {
    var g0 := reg[gameId];
    assert ValidState(g0);
    assert userId != other;
    assert !HasPlayed(g0, userId);
    var g := g0.(moves := g0.moves[userId := mine]);
    assert g.moves == map[other := theirs, userId := mine];
    assert |g.moves| == 2 by {
      assert g.moves.Keys == {other, userId};
    }
    assert PlayMoveStep(g0, userId, mine) == (MovePlayed(g.moves), g);
  }

  /** Settling two real moves: equal moves tie, otherwise the dominant move's player is paid and named first. */
  lemma {:induction false} SettleDecided(reg: map<string, GameState>, gameId: string, userId: string, other: string,
                                         mine: Move, theirs: Move, directory: map<string, string>, production: bool)
    requires gameId in reg && BothMoved(reg[gameId], userId, other, mine, theirs)
    requires userId in directory && other in directory && directory[userId] != "" && directory[other] != ""
    ensures var st := Settle(reg, gameId, directory, production);
            var me, them := User(userId, directory[userId]), User(other, directory[other]);
            && st.registry == reg - {gameId}
            && (mine == theirs ==> st.reply == Returned(Tie) && st.effects == [TieResult(reg[gameId].usersIds)])
            && (Beats(mine, theirs) ==>
                  && st.reply == Returned(Win(me.name, them.name))
                  && st.effects == (if production then [Payout(them.name, me.name)] else []) + [WinnerResult(me, them)])
            && (Beats(theirs, mine) ==>
                  && st.reply == Returned(Win(them.name, me.name))
                  && st.effects == (if production then [Payout(me.name, them.name)] else []) + [WinnerResult(them, me)])
  {
    ResolveBetween(reg[gameId], userId, other, mine, theirs);
    if Beats(mine, theirs) {
      NamesOfPair(directory, userId, other);
    } else if Beats(theirs, mine) {
      NamesOfPair(directory, other, userId);
    }
  }

  /**
   * The deciding move: when the other participant has played `theirs` and `userId` now plays
   * `mine` (both real moves), equal moves tie and otherwise the dominant move wins, names come
   * in winner, loser order, the payout goes from the loser to the winner, and the match leaves
   * the registry.
   */
  lemma DecidingMove(reg: map<string, GameState>, gameId: string, userId: string, other: string,
                     mine: Move, theirs: Move, directory: map<string, string>, production: bool)
    requires ActiveRegistry(reg) && gameId in reg
    requires reg[gameId].usersIds == [userId, other] || reg[gameId].usersIds == [other, userId]
    requires reg[gameId].moves == map[other := theirs]
    requires mine != Unknown && theirs != Unknown
    requires userId in directory && other in directory && directory[userId] != "" && directory[other] != ""
    ensures var st := Play(reg, gameId, userId, Action("game", mine), directory, production);
            var me, them := User(userId, directory[userId]), User(other, directory[other]);
            && st.registry == reg - {gameId}
            && (mine == theirs ==> st.reply == Returned(Tie) && st.effects == [TieResult(reg[gameId].usersIds)])
            && (Beats(mine, theirs) ==>
                  && st.reply == Returned(Win(me.name, them.name))
                  && st.effects == (if production then [Payout(them.name, me.name)] else []) + [WinnerResult(me, them)])
            && (Beats(theirs, mine) ==>
                  && st.reply == Returned(Win(them.name, me.name))
                  && st.effects == (if production then [Payout(me.name, them.name)] else []) + [WinnerResult(them, me)])
  {
    var g := reg[gameId].(moves := map[other := theirs, userId := mine]);
    SecondMoveSettles(reg, gameId, userId, other, mine, theirs, directory, production);
    SettleDecided(reg[gameId := g], gameId, userId, other, mine, theirs, directory, production);
    UpdateThenRemove(reg, gameId, g);
  }

  /** A lone mention names the opponent, so the request goes straight to that match. */
  lemma MentionInitiates(reg: map<string, GameState>, initiatorId: string, o: Opponent, directory: map<string, string>)
    requires WellFormed(o) && ' ' !in o.id && ' ' !in o.name
    ensures Initiate(reg, initiatorId, Mention(o), directory) == InitiateAgainst(reg, initiatorId, o.id, directory)
  {
    MentionRoundTrip(o);
  }

  /**
   * A challenge by mention when no match between the two exists: the match is created with the
   * challenger alone, and both players are told, under their directory names.
   */
  lemma ChallengeCreates(reg: map<string, GameState>, a: string, b: string, nameB: string, directory: map<string, string>)
    requires WellFormed(Opponent(b, nameB)) && ' ' !in b && ' ' !in nameB
    requires Games.ComputeGameId(a, b) !in reg
    requires a in directory && b in directory && directory[a] != "" && directory[b] != ""
    ensures Initiate(reg, a, Mention(Opponent(b, nameB)), directory) ==
            Step(Returned(GameInitiated), reg[Games.ComputeGameId(a, b) := NewGame(a)],
                 [GameCreated(User(a, directory[a]), User(b, directory[b]))])
  {
    MentionRoundTrip(Opponent(b, nameB));
    assert GetUsersNames(directory, [a, b]).Some?;
  }

  /**
   * The answer to a challenge: the challenged player mentions the challenger, finds the same
   * match (the id does not depend on the order) and joins it; both players get the prompts.
   */
  lemma AnswerJoins(reg: map<string, GameState>, a: string, b: string, nameA: string, directory: map<string, string>)
    requires WellFormed(Opponent(a, nameA)) && ' ' !in a && ' ' !in nameA
    requires a != b
    requires Games.ComputeGameId(a, b) in reg && reg[Games.ComputeGameId(a, b)] == NewGame(a)
    ensures var gameId := Games.ComputeGameId(a, b);
            Initiate(reg, b, Mention(Opponent(a, nameA)), directory) ==
            Step(Returned(GameInitiated), reg[gameId := GameState([a, b], map[], Started)], [ActionPrompts([a, b], gameId)])
  {
    var gameId := Games.ComputeGameId(a, b);
    var text := Mention(Opponent(a, nameA));
    MentionInitiates(reg, b, Opponent(a, nameA), directory);
    ComputeGameIdSymmetric(a, b);
    assert InitiateAgainst(reg, b, a, directory) == JoinRegistered(reg, gameId, b);
    var joined := GameState([a, b], map[], Started);
    assert NewGame(a).usersIds + [b] == [a, b];
    assert AddUserStep(NewGame(a), b) == (Added, joined);
    assert JoinGameSpec(NewGame(a), gameId, b) == (Returned(GameJoined), joined, [ActionPrompts([a, b], gameId)]);
    assert JoinRegistered(reg, gameId, b) == Step(Returned(GameInitiated), reg[gameId := joined], [ActionPrompts([a, b], gameId)]);
  }

  /** The challenger repeating the challenge before it is answered is told to wait; nothing changes. */
  lemma RepeatedChallengeWaits(reg: map<string, GameState>, a: string, b: string, nameB: string, directory: map<string, string>)
    requires WellFormed(Opponent(b, nameB)) && ' ' !in b && ' ' !in nameB
    requires Games.ComputeGameId(a, b) in reg && reg[Games.ComputeGameId(a, b)] == NewGame(a)
    ensures Initiate(reg, a, Mention(Opponent(b, nameB)), directory) ==
            Step(Returned(GameNotInitiated(InitiateReason.StillWaiting)), reg, [])
  {
    var gameId := Games.ComputeGameId(a, b);
    var text := Mention(Opponent(b, nameB));
    MentionInitiates(reg, a, Opponent(b, nameB), directory);
    assert InitiateAgainst(reg, a, b, directory) == JoinRegistered(reg, gameId, a);
    assert JoinGameSpec(NewGame(a), gameId, a) == (Returned(JoinResult.StillWaiting), NewGame(a), []);
    UpdateSame(reg, gameId);
  }

  /** The first move of a joined match is recorded and leaves the match pending. */
  lemma FirstMovePends(reg: map<string, GameState>, gameId: string, userId: string, move: Move,
                       directory: map<string, string>, production: bool)
    requires gameId in reg && reg[gameId].status == Started && reg[gameId].moves == map[]
    requires userId in reg[gameId].usersIds
    ensures Play(reg, gameId, userId, Action("game", move), directory, production) ==
            Step(Returned(Pending), reg[gameId := reg[gameId].(moves := map[userId := move])], [])
  {
    assert map[][userId := move] == map[userId := move];
  }

  /** A stored `null` move is falsy: its owner may play again, and the new move is pending. */
  lemma UnknownMoveReplays(reg: map<string, GameState>, gameId: string, a: string, b: string, move: Move,
                           directory: map<string, string>, production: bool)
    requires gameId in reg && a != b
    requires reg[gameId] == GameState([a, b], map[a := Unknown], Started)
    ensures Play(reg, gameId, a, Action("game", move), directory, production) ==
            Step(Returned(Pending), reg[gameId := GameState([a, b], map[a := move], Started)], [])
  {
    assert map[a := Unknown][a := move] == map[a := move];
  }

  /** Two `null` moves are equal, so the match is a tie and is removed. */
  lemma UnknownMovesTie(reg: map<string, GameState>, gameId: string, a: string, b: string,
                        directory: map<string, string>, production: bool)
    requires gameId in reg && a != b
    requires reg[gameId] == GameState([a, b], map[a := Unknown], Started)
    ensures Play(reg, gameId, b, Action("game", Unknown), directory, production) ==
            Step(Returned(Tie), reg - {gameId}, [TieResult([a, b])])
  {
    var moves := map[a := Unknown][b := Unknown];
    assert moves.Keys == {a, b};
    assert |moves| == 2;
    var g := GameState([a, b], moves, Started);
    assert Resolve(g) == NoWinner;
    assert reg[gameId := g] - {gameId} == reg - {gameId};
  }

  /**
   * A whole match through the service: `a` challenges `b` by mention, `b` answers with the
   * mention of `a`, `a` plays, then `b` plays a move that `a`'s move beats. `a` wins, the
   * payout (in production) goes from `b` to `a`, and the registry ends as it started.
   */
  lemma FullMatch(reg: map<string, GameState>, a: string, b: string, nameA: string, nameB: string,
                  directory: map<string, string>, moveA: Move, moveB: Move, production: bool)
    requires ActiveRegistry(reg)
    requires a != b
    requires WellFormed(Opponent(a, nameA)) && WellFormed(Opponent(b, nameB))
    requires ' ' !in a && ' ' !in b && ' ' !in nameA && ' ' !in nameB
    requires a in directory && b in directory && directory[a] == nameA && directory[b] == nameB
    requires nameA != "" && nameB != ""
    requires Games.ComputeGameId(a, b) !in reg
    requires Beats(moveA, moveB)
    ensures var gameId := Games.ComputeGameId(a, b);
            var s1 := Initiate(reg, a, Mention(Opponent(b, nameB)), directory);
            var s2 := Initiate(s1.registry, b, Mention(Opponent(a, nameA)), directory);
            var s3 := Play(s2.registry, gameId, a, Action("game", moveA), directory, production);
            var s4 := Play(s3.registry, gameId, b, Action("game", moveB), directory, production);
            && s1.reply == Returned(GameInitiated)
            && s1.effects == [GameCreated(User(a, nameA), User(b, nameB))]
            && s2.reply == Returned(GameInitiated)
            && s2.effects == [ActionPrompts([a, b], gameId)]
            && s3.reply == Returned(Pending)
            && s4.reply == Returned(Win(nameA, nameB))
            && s4.effects == (if production then [Payout(nameB, nameA)] else []) + [WinnerResult(User(a, nameA), User(b, nameB))]
            && s4.registry == reg
  {
    var gameId := Games.ComputeGameId(a, b);
    ChallengeCreates(reg, a, b, nameB, directory);
    var r1 := reg[gameId := NewGame(a)];
    AnswerJoins(r1, a, b, nameA, directory);
    var r2 := r1[gameId := GameState([a, b], map[], Started)];
    FirstMovePends(r2, gameId, a, moveA, directory, production);
    var pending := GameState([a, b], map[a := moveA], Started);
    var r3 := reg[gameId := pending];
    UpdateTwice(reg, gameId, NewGame(a), GameState([a, b], map[], Started));
    UpdateTwice(reg, gameId, GameState([a, b], map[], Started), pending);
    DecidingMove(r3, gameId, b, a, moveB, moveA, directory, production);
    RemoveAdded(reg, gameId, pending);
  }

  lemma UpdateTwice<K, V>(m: map<K, V>, k: K, x: V, y: V)
    ensures m[k := x][k := y] == m[k := y]
  {
  }

  lemma UpdateSame<K, V>(m: map<K, V>, k: K)
    requires k in m
    ensures m[k := m[k]] == m
  {
  }

  lemma UpdateThenRemove<K, V>(m: map<K, V>, k: K, x: V)
    ensures m[k := x] - {k} == m - {k}
  {
  }

  lemma RemoveAdded<K, V>(m: map<K, V>, k: K, x: V)
    requires k !in m
    ensures m[k := x] - {k} == m
  {
    assert (m[k := x] - {k}).Keys == m.Keys;
  }

  /** The registry's contents as values. */
  ghost function Snapshot(games: Games): map<string, GameState>
    reads games, games.gamesList.Values
  {
    map id | id in games.gamesList :: games.gamesList[id].State()
  }

  /** Every match is stored under its own id, and the stored states satisfy the registry invariant. */
  ghost predicate Invariant(games: Games)
    reads games, games.gamesList.Values
  {
    games.Valid() && ActiveRegistry(Snapshot(games))
  }

  method CreateGame(games: Games, initiatorId: string, opponentId: string, gameId: string,
                    directory: map<string, string>) returns (reply: Reply<()>, effects: seq<Effect>)
    requires Invariant(games)
    modifies games
    ensures Invariant(games)
    ensures Step(reply, Snapshot(games), effects) ==
            CreateGameSpec(old(Snapshot(games)), initiatorId, opponentId, gameId, directory)
  {
    var names := GetUsersNames(directory, [initiatorId, opponentId]);
    if names.None? {
      return Threw(NameNotFound), [];
    }
    var initiated := games.InitiateGame(gameId, initiatorId);
    if initiated.Failure? {
      return Threw(DuplicateGame(initiated.error.id)), [];
    }
    assert Snapshot(games) == old(Snapshot(games))[gameId := NewGame(initiatorId)];
    reply := Returned(());
    effects := [GameCreated(User(initiatorId, names.value[0]), User(opponentId, names.value[1]))];
  }

  method JoinGame(game: Game, joinerId: string) returns (reply: Reply<JoinResult>, effects: seq<Effect>)
    modifies game
    ensures (reply, game.State(), effects) == JoinGameSpec(old(game.State()), game.gameId, joinerId)
  {
    var usersIds := game.usersIds;
    if |usersIds| > 0 && usersIds[0] == joinerId {
      return Returned(JoinResult.StillWaiting), [];
    }
    var added := game.AddUser(joinerId);
    if added.NotAdded? {
      return Threw(JoinFailed(added.reason)), [];
    }
    reply := Returned(GameJoined);
    effects := [ActionPrompts(game.usersIds, game.gameId)];
  }

  /** The join branch of `initiateShifubriqGame`, acting on the registered match object. */
  method JoinRegisteredGame(games: Games, game: Game, joinerId: string)
    returns (reply: Reply<InitiateResult>, effects: seq<Effect>)
    requires Invariant(games) && game.gameId in games.gamesList && games.gamesList[game.gameId] == game
    modifies game
    ensures Invariant(games)
    ensures Step(reply, Snapshot(games), effects) == JoinRegistered(old(Snapshot(games)), game.gameId, joinerId)
  {
    ghost var before := Snapshot(games);
    var joined;
    joined, effects := JoinGame(game, joinerId);
    assert Snapshot(games) == before[game.gameId := game.State()] by {
      forall id | id in games.gamesList && id != game.gameId
        ensures games.gamesList[id] != game
      {
        assert games.gamesList[id].gameId == id;
      }
    }
    reply := match joined
      case Threw(e) => Threw(e)
      case Returned(outcome) =>
        if outcome.StillWaiting? then Returned(GameNotInitiated(InitiateReason.StillWaiting)) else Returned(GameInitiated);
  }

  method InitiateShifubriqGame(games: Games, initiatorId: string, text: string, directory: map<string, string>)
    returns (reply: Reply<InitiateResult>, effects: seq<Effect>)
    requires Invariant(games)
    modifies games, games.gamesList.Values
    ensures Invariant(games)
    ensures Step(reply, Snapshot(games), effects) == Initiate(old(Snapshot(games)), initiatorId, text, directory)
  {
    var parsed := GetUsernameFromString(text);
    if parsed.NotFound? {
      return Returned(GameNotInitiated(NotInitiatedReason(parsed.reason))), [];
    }
    var opponent := parsed.opponent;
    var gameId := Games.ComputeGameId(initiatorId, opponent.id);
    var found := games.GetGame(gameId);
    if found.None? {
      var created;
      created, effects := CreateGame(games, initiatorId, opponent.id, gameId, directory);
      reply := if created.Returned? then Returned(GameInitiated) else Threw(created.error);
    } else {
      reply, effects := JoinRegisteredGame(games, found.value, initiatorId);
    }
  }

  /** The second move's aftermath on the registered match object; a tie or a win ends it. */
  method SettleGame(games: Games, game: Game, directory: map<string, string>, production: bool)
    returns (reply: Reply<PlayResult>, effects: seq<Effect>)
    requires Invariant(games) && game.gameId in games.gamesList && games.gamesList[game.gameId] == game
    modifies games, game
    ensures Invariant(games)
    ensures Step(reply, Snapshot(games), effects) ==
            Settle(old(Snapshot(games)), game.gameId, directory, production)
    ensures game.gameId !in games.gamesList ==> game.status == Ended
  {
    ghost var before := Snapshot(games);
    var resolved := game.ResolveGame();
    if resolved.NotResolved? {
      return Threw(ResolveFailed(resolved.reason)), [];
    }
    var usersIds := game.usersIds;
    games.EndGame(game);
    assert Snapshot(games) == before - {game.gameId};
    if resolved == NoWinner {
      reply, effects := Returned(Tie), [TieResult(usersIds)];
    } else {
      var awarded := Award(resolved.gameResult, directory, production);
      reply, effects := awarded.0, awarded.1;
    }
  }

  /** A move recorded on the registered match object: only that match's entry changes. */
  method RecordMove(games: Games, game: Game, userId: string, move: Move) returns (played: PlayMoveResult)
    requires Invariant(games) && game.gameId in games.gamesList && games.gamesList[game.gameId] == game
    modifies game
    ensures Invariant(games)
    ensures (played, game.State()) == PlayMoveStep(old(game.State()), userId, move)
    ensures Snapshot(games) == old(Snapshot(games))[game.gameId := game.State()]
  {
    ghost var before := Snapshot(games);
    played := game.PlayMove(userId, move);
    assert Snapshot(games) == before[game.gameId := game.State()] by {
      forall id | id in games.gamesList && id != game.gameId
        ensures games.gamesList[id] != game
      {
        assert games.gamesList[id].gameId == id;
      }
    }
  }

  /** `playShifubriqGame` once the action is a move and the match is found. */
  method PlayRegisteredGame(games: Games, game: Game, userId: string, move: Move,
                            directory: map<string, string>, production: bool)
    returns (reply: Reply<PlayResult>, effects: seq<Effect>)
    requires Invariant(games) && game.gameId in games.gamesList && games.gamesList[game.gameId] == game
    modifies games, game
    ensures Invariant(games)
    ensures Step(reply, Snapshot(games), effects) ==
            Play(old(Snapshot(games)), game.gameId, userId, Action("game", move), directory, production)
    ensures game.gameId !in games.gamesList ==> game.status == Ended
  {
    ghost var before := Snapshot(games);
    var played := RecordMove(games, game, userId, move);
    if played.MoveNotPlayed? {
      return Threw(MoveFailed(played.reason)), [];
    }
    if |played.moves| == 1 {
      return Returned(Pending), [];
    }
    reply, effects := SettleGame(games, game, directory, production);
  }

  method PlayShifubriqGame(games: Games, gameId: string, userId: string, action: Action,
                           directory: map<string, string>, production: bool)
    returns (reply: Reply<PlayResult>, effects: seq<Effect>)
    requires Invariant(games)
    modifies games, games.gamesList.Values
    ensures Invariant(games)
    ensures Step(reply, Snapshot(games), effects) ==
            Play(old(Snapshot(games)), gameId, userId, action, directory, production)
    ensures gameId in old(games.gamesList) && gameId !in games.gamesList ==>
              old(games.gamesList[gameId]).status == Ended
  {
    if action.name != "game" {
      return Returned(NotPlayed(UnknownAction)), [];
    }
    var found := games.GetGame(gameId);
    if found.None? {
      return Threw(MissingGame), [];
    }
    reply, effects := PlayRegisteredGame(games, found.value, userId, action.value, directory, production);
  }
}

=== FILE: username.dfy ===
/**
 * Reading the opponent out of the free text of the slash-command: the text must be a single
 * token that contains a chat mention `<@id|name>`.
 */
module UsernameParser {
  import opened Wrappers

  /** The characters JavaScript's `trim` removes: WhiteSpace and LineTerminator of ECMAScript. */
  predicate IsJsWhitespace(c: char) {
    var n := c as int;
    || n == 0x09 || n == 0x0A || n == 0x0B || n == 0x0C || n == 0x0D || n == 0x20
    || n == 0xA0 || n == 0x1680 || (0x2000 <= n <= 0x200A) || n == 0x2028 || n == 0x2029
    || n == 0x202F || n == 0x205F || n == 0x3000 || n == 0xFEFF
  }

  predicate IsBlank(s: string) {
    forall i :: 0 <= i < |s| ==> IsJsWhitespace(s[i])
  }

  /** Drops the leading whitespace: what is left is a suffix that starts with a non-space. */
  function TrimStart(s: string): (r: string)
    ensures |r| <= |s| && r == s[|s| - |r|..]
    ensures r == [] || !IsJsWhitespace(r[0])
    ensures IsBlank(s[..|s| - |r|])
  {
    if |s| > 0 && IsJsWhitespace(s[0]) then
      var r := TrimStart(s[1..]);
      assert s[..|s| - |r|] == [s[0]] + s[1..][..|s| - 1 - |r|];
      r
    else s
  }

  /** Drops the trailing whitespace: what is left is a prefix that ends with a non-space. */
  function TrimEnd(s: string): (r: string)
    ensures |r| <= |s| && r == s[..|r|]
    ensures r == [] || !IsJsWhitespace(r[|r| - 1])
    ensures IsBlank(s[|r|..])
  {
    if |s| > 0 && IsJsWhitespace(s[|s| - 1]) then
      var r := TrimEnd(s[..|s| - 1]);
      assert s[|r|..] == s[..|s| - 1][|r|..] + [s[|s| - 1]];
      r
    else s
  }

  /** `text.trim()` is empty exactly when the text is all whitespace. */
  function Trim(s: string): (r: string)
    ensures r == [] <==> IsBlank(s)
  {
    var t := TrimStart(s);
    var r := TrimEnd(t);
    assert r == [] ==> s == s[..|s| - |t|] + t[|r|..];
    r
  }

  /** `s.split(' ')`: the pieces between single spaces; empty pieces are kept. */
  function Split(s: string): (pieces: seq<string>)
    ensures |pieces| >= 1
    ensures forall p :: p in pieces ==> ' ' !in p
    ensures ' ' !in s ==> pieces == [s]
    ensures ' ' in s ==> |pieces| > 1
  {
    if |s| == 0 then [""]
    else
      var rest := Split(s[1..]);
      assert s == [s[0]] + s[1..];
      if s[0] == ' ' then [""] + rest
      else [[s[0]] + rest[0]] + rest[1..]
  }

  /** `pieces.join(' ')`. */
  function Join(pieces: seq<string>): string {
    if |pieces| == 0 then ""
    else if |pieces| == 1 then pieces[0]
    else pieces[0] + " " + Join(pieces[1..])
  }

  /** Splitting loses nothing: joining the pieces with single spaces gives the text back. */
  lemma {:induction false} SplitJoin(s: string)
    ensures Join(Split(s)) == s
  {
    if |s| > 0 {
      SplitJoin(s[1..]);
      var rest := Split(s[1..]);
      if s[0] == ' ' {
        assert Split(s) == [""] + rest;
        assert s == " " + s[1..];
      } else if |rest| == 1 {
        assert Split(s) == [[s[0]] + rest[0]];
      } else {
        assert Split(s) == [[s[0]] + rest[0]] + rest[1..];
        assert rest == [rest[0]] + rest[1..];
      }
    }
  }

  /** The first position at or after `from` that holds `c`. */
  function IndexFrom(s: string, c: char, from: nat): (k: Option<nat>)
    decreases |s| - from
    ensures k.Some? ==> from <= k.value < |s| && s[k.value] == c
    ensures k.Some? ==> forall j :: from <= j < k.value ==> s[j] != c
    ensures k.None? ==> forall j :: from <= j < |s| ==> s[j] != c
  {
    if from >= |s| then None
    else if s[from] == c then Some(from)
    else IndexFrom(s, c, from + 1)
  }

  datatype Opponent = Opponent(id: string, name: string)

  /** The chat's mention syntax for a user. */
  function Mention(o: Opponent): string {
    "<@" + o.id + "|" + o.name + ">"
  }

  /** An id and a name that the mention pattern can capture: no `|` in the id, no `>` in the name. */
  predicate WellFormed(o: Opponent) {
    '|' !in o.id && '>' !in o.name
  }

  /**
   * One attempt of the pattern `<@([^|]*)\|([^>]*)>` at position `i`: the id runs up to the
   * first `|`, the name from there up to the next `>`. A result is a well-formed mention that
   * stands in `s` at `i`.
   */
  function MatchAt(s: string, i: nat): (r: Option<Opponent>)
    ensures r.Some? ==> WellFormed(r.value)
    ensures r.Some? ==> i + |Mention(r.value)| <= |s| && s[i..i + |Mention(r.value)|] == Mention(r.value)
  {
    if i + 2 <= |s| && s[i] == '<' && s[i + 1] == '@' then
      match IndexFrom(s, '|', i + 2)
      case None => None
      case Some(bar) =>
        match IndexFrom(s, '>', bar + 1)
        case None => None
        case Some(close) =>
          var o := Opponent(s[i + 2..bar], s[bar + 1..close]);
          assert s[i..close + 1] == Mention(o);
          Some(o)
    else None
  }

  /** The character layout of a mention: `<@`, the id, `|`, the name, `>`. */
  lemma MentionLayout(o: Opponent)
    ensures var m := Mention(o);
            && |m| == |o.id| + |o.name| + 4
            && m[0] == '<' && m[1] == '@' && m[2 + |o.id|] == '|' && m[|m| - 1] == '>'
            && (forall j :: 0 <= j < |o.id| ==> m[2 + j] == o.id[j])
            && (forall j :: 0 <= j < |o.name| ==> m[3 + |o.id| + j] == o.name[j])
  {
  }

  /** A position holding `c` with no `c` before it (from `from` on) is what the search finds. */
  lemma {:induction false} IndexFromFinds(s: string, c: char, from: nat, k: nat)
    requires from <= k < |s| && s[k] == c
    requires forall j :: from <= j < k ==> s[j] != c
    ensures IndexFrom(s, c, from) == Some(k)
    decreases k - from
  {
    if from < k {
      IndexFromFinds(s, c, from + 1, k);
    }
  }

  /** A mention standing at `i` puts its delimiters, its id and its name at known positions. */
  lemma MentionAt(s: string, i: nat, o: Opponent)
    requires i + |Mention(o)| <= |s| && s[i..i + |Mention(o)|] == Mention(o)
    ensures var bar, close := i + 2 + |o.id|, i + 3 + |o.id| + |o.name|;
            && close < |s|
            && s[i] == '<' && s[i + 1] == '@' && s[bar] == '|' && s[close] == '>'
            && s[i + 2..bar] == o.id && s[bar + 1..close] == o.name
  {
    var m := Mention(o);
    MentionLayout(o);
    var bar := i + 2 + |o.id|;
    var close := bar + 1 + |o.name|;
    assert forall j :: 0 <= j < |m| ==> s[i + j] == m[j];
    forall j | 0 <= j < |o.id|
      ensures s[i + 2 + j] == o.id[j]
    {
      assert s[i + (2 + j)] == m[2 + j];
    }
    forall j | 0 <= j < |o.name|
      ensures s[bar + 1 + j] == o.name[j]
    {
      assert s[i + (3 + |o.id| + j)] == m[3 + |o.id| + j];
    }
    assert s[bar] == m[2 + |o.id|];
    assert s[close] == m[|m| - 1];
  }

  /** Every well-formed mention that stands at `i` is what the pattern captures there. */
  lemma MatchAtComplete(s: string, i: nat, o: Opponent)
    requires WellFormed(o)
    requires i + |Mention(o)| <= |s| && s[i..i + |Mention(o)|] == Mention(o)
    ensures MatchAt(s, i) == Some(o)
  {
    var bar, close := i + 2 + |o.id|, i + 3 + |o.id| + |o.name|;
    MentionAt(s, i, o);
    assert forall j :: i + 2 <= j < bar ==> s[j] == s[i + 2..bar][j - (i + 2)];
    IndexFromFinds(s, '|', i + 2, bar);
    assert forall j :: bar + 1 <= j < close ==> s[j] == s[bar + 1..close][j - (bar + 1)];
    IndexFromFinds(s, '>', bar + 1, close);
  }

  /** The leftmost position at or after `from` where the pattern matches. */
  function FirstMatch(s: string, from: nat): (r: Option<nat>)
    decreases |s| - from
    ensures r.Some? ==> from <= r.value < |s| && MatchAt(s, r.value).Some?
    ensures r.Some? ==> forall j :: from <= j < r.value ==> MatchAt(s, j).None?
    ensures r.None? ==> forall j :: from <= j ==> MatchAt(s, j).None?
  {
    if from >= |s| then None
    else if MatchAt(s, from).Some? then Some(from)
    else FirstMatch(s, from + 1)
  }

  datatype NotFoundReason = NoArgument | TooManyArguments | NoUserName
  datatype UsernameResult = NotFound(reason: NotFoundReason) | Found(opponent: Opponent)

  /**
   * `getUsernameFromString`: blank text, then more than one space-separated piece, then no
   * mention; otherwise the leftmost mention in the text.
   */
  function GetUsernameFromString(text: string): (r: UsernameResult)
    ensures r == NotFound(NoArgument) <==> IsBlank(text)
    ensures r == NotFound(TooManyArguments) <==> !IsBlank(text) && ' ' in text
    ensures r == NotFound(NoUserName) <==>
              !IsBlank(text) && ' ' !in text && forall i: nat :: MatchAt(text, i).None?
    ensures r.Found? ==>
              && WellFormed(r.opponent) && ' ' !in text
              && exists i: nat :: MatchAt(text, i) == Some(r.opponent) && forall j :: 0 <= j < i ==> MatchAt(text, j).None?
  {
    if Trim(text) == "" then NotFound(NoArgument)
    else
      var pieces := Split(text);
      if |pieces| > 1 then NotFound(TooManyArguments)
      else
        var token := pieces[0];
        assert token == text;
        match FirstMatch(token, 0)
        case None => NotFound(NoUserName)
        case Some(i) =>
          var o := MatchAt(token, i).value;
          assert MatchAt(text, i) == Some(o);
          Found(o)
  }

  /** Parsing a lone mention gives back its id and name, when neither holds a space. */
  lemma MentionRoundTrip(o: Opponent)
    requires WellFormed(o) && ' ' !in o.id && ' ' !in o.name
    ensures GetUsernameFromString(Mention(o)) == Found(o)
  {
    var text := Mention(o);
    assert text[0] == '<';
    assert ' ' !in text by {
      assert text == ['<', '@'] + o.id + ['|'] + o.name + ['>'];
    }
    assert text[0..|text|] == text;
    MatchAtComplete(text, 0, o);
  }
}

=== FILE: wrappers.dfy ===
/** Optional values and success-or-failure values shared by the model's modules. */
module Wrappers {

  /** A value that may be absent (JavaScript's `undefined`). */
  datatype Option<+T> = None | Some(value: T)

  /** A value, or the error a JavaScript `throw` would have raised instead. */
  datatype Result<+T, +E> = Success(value: T) | Failure(error: E)
}
